=== FILE: README.md ===
# bgg-collection-merge: merge, sort and filter, modelled in Dafny

The application loads the BoardGameGeek collections of several users. It merges them into one list with one entry per game name, recording in the entry's `owner` attribute every user who owns that game. It then shows the list sorted by average score or by name, optionally filtered by a player count. This project models that pipeline, all of it in `src/App.tsx`:

- `items.dfy` (module `Items`): the collection record, its merge key (the `<name>` text, or "" without a name) and the "names are distinct" property.
- `merge.dfy` (module `Merge`): `mergeCollections`.
  - The imperative loop `MergeCollections` keeps a map from each name to the position of its merged item. The application's `itemMap` maps the name to the element itself.
  - It is proved equal to `MergeAll`, a left fold that absorbs one item at a time.
  - Lemmas give the result's names, order, owners and length.
- `text.dfy` (module `Text`): `String.prototype.trim` and the string comparison the comparators use.
- `sorting.dfy` (module `Sorting`): the comparators of `sortNodeArrayByChildValue` and `sortNodeArrayByChildAttributeValue`, the in-place array sort, and `ApplySort`.
  - The sort is an insertion sort on the array, proved equal to `StableSort`.
  - Proved about `StableSort`: a permutation, ordered, stable, and idempotent.
- `player_filter.dfy` (module `PlayerFilter`): `isValidPlayerCount` and the `filter` call inside `filterByPlayerCount`.
- `view.dfy` (module `View`): the component state as a class `CollectionView`.
  - Fields: `unfiltered` and `filtered` (two separate arrays) and `sortField`.
  - Methods for the handlers `onGetBggClicked`, `onSortFilterChanged` and `filterByPlayerCount`.
  - The invariant `Valid` says three things. The loaded list is a reordering of the merged collection, with distinct names. The list on screen holds only loaded games. The list on screen is in the current field's order.

Items with a missing child are handled as follows:

- An item with no `<average>` child is not sorted as if its score were "". The comparators return 0 as soon as either item lacks the `<average>` (or `<name>`) child.
  - The model's insertion sort never moves an item past one that lacks the child.
  - For two items, any stable sort agrees (`Sorting.MissingScoreKeepsPlace`).
  - For longer lists, an engine's sort may order such items differently (see "## Left out").
- An `<average>` child without a `value` attribute does compare as "", so it sorts after every non-empty score (`Sorting.ScoreSortExample`).

## Model

| member | source | states |
|---|---|---|
| Merge.MergeCollections | src/App.tsx:66-90 | the loop over collections and items, with its name-to-position map, returns exactly `MergeAll` of all items in batch order |
| Items.NameKey | src/App.tsx:77 | the merge key: the `<name>` text, or "" when the item has no name |
| Merge.Absorb | src/App.tsx:78-86 | one merge step: a repeated name extends the present item's owner by ", " and the new owner; a new name is appended; the list grows by one exactly when the name was not yet present |
| Merge.MergeAll | src/App.tsx:73-88 | the merge of the items in order, one `Absorb` step each; never longer than its input |
| Merge.KeyIndex | src/App.tsx:77-78 | the map lookup: the first position holding the name, or -1 exactly when no item has it |
| Merge.MergeFirstSeenOrder | src/App.tsx:83-86 | the merged names are the input names in order of first appearance, each once |
| Merge.MergeKeepsNames | src/App.tsx:76-86 | a name is in the merge exactly when some input item has it |
| Merge.MergeHasUniqueNames | src/App.tsx:78-86 | no two merged items share a name |
| Merge.MergedItemContents | src/App.tsx:78-86 | each merged item is the first input item with its name; its owner is the owners of all items with that name, in input order, joined with ", " |
| Merge.MergeStep | src/App.tsx:78-86 | one more item either extends the matching entry's owner by ", " and its owner, leaving every other entry as it was, or is appended at the end |
| Merge.MergeOfDistinctNames | src/App.tsx:83-86 | with all names distinct the merge returns its input unchanged |
| Merge.MergeLengthOfDistinct | src/App.tsx:73-88 | with all names distinct the merge has as many items as all batches together |
| Merge.FlattenLength | src/App.tsx:73-76 | the items taken from the batches number the sum of the batch lengths |
| Merge.FlattenAppend | src/App.tsx:73-76 | taking items from two runs of batches is taking them from each in turn |
| Merge.EmptyBatchChangesNothing | src/App.tsx:73-76 | an empty collection anywhere among the batches leaves the merge unchanged |
| Merge.SameGameForThreeUsers | src/App.tsx:78-86 | one game owned by "ann", "bob" and "cy" merges to one entry with owner "ann, bob, cy" |
| Merge.OwnersNamedPresent | src/App.tsx:78-82 | some owner is recorded for a name exactly when an input item has that name |
| Merge.JoinOwnersSnoc | src/App.tsx:80-82 | appending an owner adds ", " and the owner to the joined list |
| Merge.FirstSeen | src/App.tsx:78-86 | a name is listed exactly when it occurs in the input |
| Items.PermutationKeepsUniqueNames | src/App.tsx:37-39 | reordering a list with distinct names keeps them distinct |
| Text.LeadingSpace | src/App.tsx:109 | counts the whitespace prefix: every character before the count is whitespace, the one at it is not |
| Text.TrailingStart | src/App.tsx:109 | the length without trailing whitespace: every character after it is whitespace, the last one kept is not |
| Text.Trim | src/App.tsx:109-110 | the result is a slice of the input; only whitespace is removed, from both ends; it neither starts nor ends with whitespace |
| Text.TrimIdempotent | src/App.tsx:137-138 | trimming twice is trimming once |
| Text.TrimKeepsTrimmed | src/App.tsx:137-138 | a string that starts and ends with a kept character is its own trim |
| Text.LocaleCompare | src/App.tsx:112-114 | the comparison answers -1, 0 or 1 |
| Text.LocaleCompareFlip | src/App.tsx:112-114 | swapping the arguments negates the answer |
| Text.LocaleCompareZero | src/App.tsx:140-142 | the answer is 0 exactly for equal strings |
| Text.LocaleCompareTransitive | src/App.tsx:140-142 | "sorts no later than" is transitive |
| Sorting.SortKey | src/App.tsx:101-110 | what the comparator reads: the trimmed `<name>` text or `<average>` `value`, None when the item lacks the child |
| Sorting.SortKeyIsTrimmed | src/App.tsx:129-138 | an item has a key exactly when it has the child, and the key is its own trim |
| Sorting.Compare | src/App.tsx:100-115 | the comparator answers -1, 0 or 1 |
| Sorting.CompareFlip | src/App.tsx:128-143 | swapping the items negates the comparator, including the ascending/descending switch |
| Sorting.CompareNonzero | src/App.tsx:104-107 | a nonzero answer needs both items to have the child, with different trimmed values |
| Sorting.CompareTransitive | src/App.tsx:137-142 | among items that have the child the order is transitive |
| Sorting.InsertSorted | src/App.tsx:100-115 | one insertion: the item moves left past the run of last items the comparator puts after it, stopping at the first one it does not; one longer than before, and ends with the item or with the old last item |
| Sorting.InsertSortedAt | src/App.tsx:100-115 | an insertion places the item just before the run of last items the comparator puts after it and just after the nearest earlier item it does not put after it (or at the front); every other item keeps its order |
| Sorting.StableSort | src/App.tsx:100-116 | the sorted list: insertions of each item in turn, as long as its input |
| Sorting.SortInPlace | src/App.tsx:100-116 | sorting the array in place leaves it holding `StableSort` of its old contents |
| Sorting.SinkLast | src/App.tsx:128-143 | one insertion step moves the next item left past the run of earlier items just before it that the comparator puts after it, stopping at the first one it does not, and leaves the rest of the array as it was |
| Sorting.InsertSortedPermutes | src/App.tsx:128-143 | an insertion step adds exactly the inserted item |
| Sorting.StableSortPermutes | src/App.tsx:100-116 | the sort returns a permutation of its input |
| Sorting.StableSortAdjacentInOrder | src/App.tsx:128-145 | after the sort no item is placed before a neighbour the comparator puts first, whatever children are missing |
| Sorting.StableSortInOrder | src/App.tsx:100-115 | when every item has the child, every item is no later than every item after it |
| Sorting.AdjacentOrderIsOrder | src/App.tsx:137-142 | with all keys present, order between neighbours is order between all pairs |
| Sorting.SortedIsFixed | src/App.tsx:128-145 | sorting a list already in order changes nothing |
| Sorting.StableSortIdempotent | src/App.tsx:100-116 | sorting twice is sorting once |
| Sorting.StableSortIsStable | src/App.tsx:100-116 | for each key value, and for the items lacking the child, the items keep their relative order |
| Sorting.OrderFor | src/App.tsx:176-195 | the `switch`: a sort exactly for "averageScore" and "alphabetical"; the name sort ascends and the score sort descends |
| Sorting.ApplySort | src/App.tsx:174-196 | "averageScore" sorts the array by score descending and "alphabetical" by name ascending, both returning the same array; any other field leaves the array as it was and returns a new empty array |
| Sorting.ApplySortPermutes | src/App.tsx:174-196 | both sorts return a permutation of the array; any other field returns nothing |
| Sorting.ResortedIdempotent | src/App.tsx:174-196 | applying the same sort field twice is applying it once |
| Sorting.ScoreSortIsDescending | src/App.tsx:177-184 | when every item has an `<average>`, the trimmed scores run from highest to lowest |
| Sorting.NameSortIsAscending | src/App.tsx:186-192 | when every item has a `<name>`, the trimmed names run from lowest to highest |
| Sorting.ScoreSortExample | src/App.tsx:137-142 | scores "7.5", "8.2" and "" sort as "8.2", "7.5", "" |
| Sorting.NameSortExample | src/App.tsx:100-116 | names "Zoo", "Ark", "mid" sort by character code as "Ark", "Zoo", "mid" |
| Sorting.ScoresCompareAsText | src/App.tsx:137-142 | scores compare as text, so "9.5" lists before "10" |
| Sorting.MissingScoreKeepsPlace | src/App.tsx:132-135 | of two items, one without `<average>` ahead of a scored one stays ahead |
| PlayerFilter.MinPlayers | src/App.tsx:300-301 | the `minplayers` bound, 0 when the `<stats>` node or the attribute is missing |
| PlayerFilter.MaxPlayers | src/App.tsx:300-302 | the `maxplayers` bound, 0 when the `<stats>` node or the attribute is missing |
| PlayerFilter.IsValidPlayerCount | src/App.tsx:299-308 | the count lies between the two bounds, both included; a game that accepts any count has its lower bound no greater than its upper |
| PlayerFilter.ValidCountsAreContiguous | src/App.tsx:299-308 | the accepted player counts form one unbroken range |
| PlayerFilter.TwoToFourPlayers | src/App.tsx:301-303 | a game for 2 to 4 players accepts exactly 2, 3 and 4 |
| PlayerFilter.NoBoundsMatchesOnlyZero | src/App.tsx:300-302 | a game with no bounds accepts only 0 players |
| PlayerFilter.SelectPlayable | src/App.tsx:288-290 | the filter's result is no longer than its input |
| PlayerFilter.SelectPlayableCounts | src/App.tsx:288-290 | the filter keeps each accepting item as often as it occurs and drops every other item |
| PlayerFilter.SelectPlayableAppend | src/App.tsx:288-290 | the filter keeps order: filtering a concatenation filters each part |
| PlayerFilter.SelectAllPlayable | src/App.tsx:288-290 | a list whose items all accept the count passes unchanged |
| PlayerFilter.SelectPlayableIdempotent | src/App.tsx:288-290 | filtering twice for one count is filtering once |
| View.FilteredView | src/App.tsx:278-294 | the list `filterByPlayerCount` shows: all loaded items for a negative count, the accepting ones otherwise, sorted by the field; never longer than the loaded list, and empty under an unknown field |
| View.FilteredViewCounts | src/App.tsx:278-294 | after a filter, each item shows as often as loaded when the count is negative or the item accepts it, and never otherwise; nothing shows under an unknown sort field |
| View.FilteredViewWithinLoaded | src/App.tsx:278-294 | the list on screen never holds an item, or a copy of one, that the loaded list does not |
| View.FilteredViewInOrder | src/App.tsx:278-294 | the filtered list is in the sort field's order |
| View.ClearingFilterRestoresLoadedView | src/App.tsx:279-284 | under "averageScore" or "alphabetical", as long as the sort field has not changed since the load, choosing a negative count brings back exactly the list shown at load time, whatever was filtered before (after a change of field the same items come back, by `View.FilteredViewCounts`, but in the new field's order) |
| View.FilterTwiceIsFilterOnce | src/App.tsx:278-294 | under any sort field, filtering the list on screen again for the same count, negative or not, changes nothing |
| View.LoadedViewIsValid | src/App.tsx:34-42 | the loaded list is a reordering of the merge, has distinct names, and is in the field's order |
| View.LoadedViewIsMergedCollection | src/App.tsx:34-39 | the loaded list is a reordering of the merged collection and has distinct names |
| View.CopyOf | src/App.tsx:41-42 | a spread copy is a new array with the same items |
| View.CollectionView.constructor | src/App.tsx:10-25 | the first render starts with "averageScore" and then loads, leaving both lists equal to the merge sorted by score |
| View.CollectionView.OnGetBggClicked | src/App.tsx:27-43 | the loaded list and the list on screen are two new arrays, each holding the merge sorted by the current field (unsorted for an unknown field); `Valid` holds |
| View.CollectionView.OnSortFilterChanged | src/App.tsx:162-169 | records the new field; sorts the array on screen in place; shows a new copy of the sorted result, or nothing for an unknown field; the loaded list is untouched; `Valid` holds |
| View.CollectionView.FilterByPlayerCount | src/App.tsx:278-294 | shows a new array holding `FilteredView` of the loaded list; the loaded list and the field are untouched; `Valid` holds |

## Left out

- Fetching a collection (`getBggCollection`, a synchronous request to the BoardGameGeek XML API) is not modelled. Each user's collection comes in as a batch of items that already carry that user as `owner`. A response that is not XML makes the fetch return "", which is an empty batch.
- A network error makes the synchronous `send` throw. That aborts the whole reload and leaves the state unchanged; this is not modelled.
- XML parsing and serialising (`DOMParser`, `XMLSerializer`, `querySelector`) are not modelled. An item is the record of the fields the core reads.
  - A missing `<name>` is `None`. The merge key reads it as ""; the name comparator returns 0 for it.
  - A missing `<average>` child is `None`. A missing `value` attribute is `Some("")`.
- Text.LocaleCompare: the browser's locale collation (ICU) is replaced by lexicographic order on character codes. Under it, upper case sorts before lower case and accents are not folded. "Zoo", "Ark", "mid" sort as "Ark", "Zoo", "mid" (`Sorting.NameSortExample`).
- Sorting.SortInPlace: `Array.prototype.sort` is required to be stable, but its algorithm is the engine's own. The model uses a stable insertion sort.
  - Both are stable, so they agree whenever the comparator is a consistent order.
  - With items missing the compared child, the comparator is not consistent, and an engine may order such items differently from the model.
- `parseInt` on the player bounds and on the selected player count is not modelled. Bounds are integers already, and a missing bound is `None`, which reads as 0. A non-numeric attribute would give `NaN`, which rejects every count; this is not modelled.
- React's state hooks, batching and re-rendering are not modelled. Each setter is an assignment to the class field. `useEffect`'s one-time initial load is the constructor.
  - `filteredCollectionItems || []` and the optional chaining for not-yet-loaded state are not modelled. The model is always loaded.
- Rendering is not modelled (`renderItems`, `renderItem`, the select boxes and the reload button, lines 151-263 and 310-339). That includes the "9 Players" option, which carries the value 8.
- Reading the usernames from the `u` query parameter is not modelled; the batches are a parameter. Neither are the fallback usernames or the `console.log` output.
- Merge.MergeCollections returns the merged items as a sequence. Moving the first occurrence of each item into a new document, and mutating its `owner` in place, become an updated sequence element.

The unknown-sort-field path (an empty list on screen) is modelled as written.

=== FILE: items.dfy ===
/**
 * The collection record. In the application an item is an XML `<item>`
 * element of a BoardGameGeek collection; here it is a plain value holding the
 * parts of that element the merge, sort and filter read.
 */
module Items {

  datatype Option<T> = None | Some(value: T)

  /**
   * One `<item>` of a collection document.
   * - `name`: text of the `<name>` child, None when there is no such child;
   * - `average`: the `value` attribute of the `<average>` child, None when
   *   there is no such child and "" when the child has no `value` attribute;
   * - `minplayers`, `maxplayers`: the `<stats>` attributes, already parsed;
   * - `owner`: the `owner` attribute, set to the requesting username when the
   *   collection was fetched and extended by the merge.
   */
  datatype Item = Item(
    name: Option<string>,
    objectid: string,
    thumbnail: string,
    average: Option<string>,
    minplayers: Option<int>,
    maxplayers: Option<int>,
    owner: string)

  /** The merge key: the name text, or "" when the item has no name. */
  function NameKey(x: Item): string {
    if x.name.Some? then x.name.value else ""
  }

  /** The merge keys of `s`, in order. */
  function Names(s: seq<Item>): (r: seq<string>)
    ensures |r| == |s|
    ensures forall i :: 0 <= i < |s| ==> r[i] == NameKey(s[i])
  {
    if s == [] then [] else Names(s[..|s| - 1]) + [NameKey(s[|s| - 1])]
  }

  /** No two items of `s` share a merge key. */
  predicate UniqueNames(s: seq<Item>) {
    forall i, j :: 0 <= i < j < |s| ==> NameKey(s[i]) != NameKey(s[j])
  }

  /** Removing one element keeps the merge keys distinct. */
  lemma RemoveKeepsUniqueNames(s: seq<Item>, k: nat)
    requires k < |s| && UniqueNames(s)
    ensures UniqueNames(s[..k] + s[k + 1..])
  {
    var t := s[..k] + s[k + 1..];
    forall i, j | 0 <= i < j < |t| ensures NameKey(t[i]) != NameKey(t[j]) {
      var i' := if i < k then i else i + 1;
      var j' := if j < k then j else j + 1;
      assert t[i] == s[i'] && t[j] == s[j'];
    }
  }

  /** Every item left after removing `s[k]` has a merge key other than `s[k]`'s. */
  lemma OthersHaveOtherNames(s: seq<Item>, k: nat, y: Item)
    requires k < |s| && UniqueNames(s)
    requires y in multiset(s[..k] + s[k + 1..])
    ensures NameKey(y) != NameKey(s[k])
  {
    var s' := s[..k] + s[k + 1..];
    var m :| 0 <= m < |s'| && s'[m] == y;
    assert s'[m] == s[if m < k then m else m + 1];
  }

  /** Taking one equal element out of two permutations of each other leaves permutations. */
  lemma RemoveFromBoth(s: seq<Item>, t: seq<Item>, k: nat)
    requires multiset(s) == multiset(t) && t != []
    requires k < |s| && s[k] == t[|t| - 1]
    ensures multiset(s[..k] + s[k + 1..]) == multiset(t[..|t| - 1])
  {
    var x := s[k];
    assert t == t[..|t| - 1] + [x];
    assert s == s[..k] + [x] + s[k + 1..];
    assert multiset(s) == multiset(s[..k] + s[k + 1..]) + multiset{x};
    assert multiset(t) == multiset(t[..|t| - 1]) + multiset{x};
    assert multiset(s[..k] + s[k + 1..]) == multiset(s) - multiset{x};
  }

  /** Reordering the items of a sequence keeps its merge keys distinct. */
  lemma {:induction false} PermutationKeepsUniqueNames(s: seq<Item>, t: seq<Item>)
    requires multiset(s) == multiset(t) && UniqueNames(s)
    ensures UniqueNames(t)
    decreases |t|
  {
    if t != [] {
      var n := |t| - 1;
      var x := t[n];
      var t' := t[..n];
      assert t == t' + [x];
      assert x in multiset(t);
      var k :| 0 <= k < |s| && s[k] == x;
      var s' := s[..k] + s[k + 1..];
      RemoveFromBoth(s, t, k);
      RemoveKeepsUniqueNames(s, k);
      PermutationKeepsUniqueNames(s', t');
      forall i | 0 <= i < n ensures NameKey(t[i]) != NameKey(x) {
        assert t[i] == t'[i];
        OthersHaveOtherNames(s, k, t'[i]);
      }
      forall i, j | 0 <= i < j < |t| ensures NameKey(t[i]) != NameKey(t[j]) {
        if j < n {
          assert t[i] == t'[i] && t[j] == t'[j];
        }
      }
    }
  }
}

=== FILE: merge.dfy ===
/**
 * Merging the per-user collections into one list with one item per name
 * (`mergeCollections`).
 *
 * Each batch is one user's collection as the fetch returned it, every item
 * already carrying that user as `owner`; a response that is not XML is an
 * empty batch. `MergeAll` is the specification: a left fold of `Absorb` over the
 * items of all batches in order. `MergeCollections` is the loop of the
 * application, proved equal to it.
 */
module Merge {
  import opened Items

  /** All items of all batches: batch order, then item order within a batch. */
  function Flatten(batches: seq<seq<Item>>): seq<Item> {
    if batches == [] then [] else Flatten(batches[..|batches| - 1]) + batches[|batches| - 1]
  }

  /** The sum of the batch lengths. */
  function TotalLength(batches: seq<seq<Item>>): nat {
    if batches == [] then 0 else TotalLength(batches[..|batches| - 1]) + |batches[|batches| - 1]|
  }

  /** Position of the first item of `s` whose merge key is `k`, or -1. */
  function KeyIndex(s: seq<Item>, k: string): (i: int)
    ensures -1 <= i < |s|
    ensures 0 <= i ==> NameKey(s[i]) == k && forall j :: 0 <= j < i ==> NameKey(s[j]) != k
    ensures i < 0 ==> forall j :: 0 <= j < |s| ==> NameKey(s[j]) != k
  {
    if s == [] then -1
    else
      var i := KeyIndex(s[..|s| - 1], k);
      if 0 <= i then i
      else if NameKey(s[|s| - 1]) == k then |s| - 1
      else -1
  }

  /**
   * One step of the merge: an item whose name is already present only
   * extends the present item's owner with ", " and its own owner; any other
   * item is appended.
   */
  function Absorb(acc: seq<Item>, x: Item): (r: seq<Item>)
    ensures |r| == if 0 <= KeyIndex(acc, NameKey(x)) then |acc| else |acc| + 1
  {
    var p := KeyIndex(acc, NameKey(x));
    if p < 0 then acc + [x]
    else acc[p := acc[p].(owner := acc[p].owner + ", " + x.owner)]
  }

  /** The merge of the items `xs`, taken in order. */
  function MergeAll(xs: seq<Item>): (r: seq<Item>)
    ensures |r| <= |xs|
  {
    if xs == [] then [] else Absorb(MergeAll(xs[..|xs| - 1]), xs[|xs| - 1])
  }

  /** `index` maps each merge key present in `merged` to its position, and nothing else. */
  ghost predicate IndexedBy(merged: seq<Item>, index: map<string, nat>) {
    && (forall k :: k in index ==> index[k] < |merged| && NameKey(merged[index[k]]) == k)
    && (forall j :: 0 <= j < |merged| ==> NameKey(merged[j]) in index && index[NameKey(merged[j])] == j)
  }

  lemma IndexedByFinds(merged: seq<Item>, index: map<string, nat>, k: string)
    requires IndexedBy(merged, index)
    ensures KeyIndex(merged, k) == if k in index then index[k] else -1
  {
  }

  /** One merge step done through the name map, as the loop does it, keeps the map exact. */
  lemma AbsorbIndexed(merged: seq<Item>, index: map<string, nat>, x: Item)
    requires IndexedBy(merged, index)
    ensures var k := NameKey(x);
      if k in index then
        var p := index[k];
        && p < |merged|
        && Absorb(merged, x) == merged[p := merged[p].(owner := merged[p].owner + ", " + x.owner)]
        && IndexedBy(Absorb(merged, x), index)
      else
        && Absorb(merged, x) == merged + [x]
        && IndexedBy(merged + [x], index[k := |merged|])
  {
    IndexedByFinds(merged, index, NameKey(x));
  }

  lemma MergeAllSnoc(xs: seq<Item>, x: Item)
    ensures MergeAll(xs + [x]) == Absorb(MergeAll(xs), x)
  {
    assert (xs + [x])[..|xs|] == xs;
  }

  lemma FlattenSnoc(batches: seq<seq<Item>>, b: nat)
    requires b < |batches|
    ensures Flatten(batches[..b + 1]) == Flatten(batches[..b]) + batches[b]
  {
    assert batches[..b + 1][..b] == batches[..b];
  }

  lemma ExtendPrefix(before: seq<Item>, members: seq<Item>, i: nat)
    requires i < |members|
    ensures before + members[..i + 1] == (before + members[..i]) + [members[i]]
  {
    assert members[..i + 1] == members[..i] + [members[i]];
  }

  /**
   * `mergeCollections`: walks the batches and their items in order, keeping a
   * map from name to the position of the merged item with that name.
   */
  method MergeCollections(batches: seq<seq<Item>>) returns (merged: seq<Item>)
    ensures merged == MergeAll(Flatten(batches))
  {
    merged := [];
    var itemMap: map<string, nat> := map[];
    for b := 0 to |batches|
      invariant merged == MergeAll(Flatten(batches[..b]))
      invariant IndexedBy(merged, itemMap)
    {
      var members := batches[b];
      ghost var before := Flatten(batches[..b]);
      assert before + members[..0] == before;
      for i := 0 to |members|
        invariant merged == MergeAll(before + members[..i])
        invariant IndexedBy(merged, itemMap)
      {
        var newItem := members[i];
        var itemName := NameKey(newItem);
        AbsorbIndexed(merged, itemMap, newItem);
        ExtendPrefix(before, members, i);
        MergeAllSnoc(before + members[..i], newItem);
        if itemName in itemMap {
          var p := itemMap[itemName];
          merged := merged[p := merged[p].(owner := merged[p].owner + ", " + newItem.owner)];
        } else {
          merged := merged + [newItem];
          itemMap := itemMap[itemName := |merged| - 1];
        }
      }
      assert members[..|members|] == members;
      FlattenSnoc(batches, b);
    }
    assert batches[..|batches|] == batches;
  }

  // ---------------------------------------------------------------------
  // Properties of the merge
  // ---------------------------------------------------------------------

  lemma NamesSnoc(xs: seq<Item>, x: Item)
    ensures Names(xs + [x]) == Names(xs) + [NameKey(x)]
  {
    assert (xs + [x])[..|xs|] == xs;
  }

  lemma KeyIndexSnoc(xs: seq<Item>, x: Item, k: string)
    ensures KeyIndex(xs + [x], k) ==
      if 0 <= KeyIndex(xs, k) then KeyIndex(xs, k) else if NameKey(x) == k then |xs| else -1
  {
    assert (xs + [x])[..|xs|] == xs;
  }

  /** A name has a position in `s` exactly when it is one of the names of `s`. */
  lemma KeyIndexFindsNames(s: seq<Item>, k: string)
    ensures 0 <= KeyIndex(s, k) <==> k in Names(s)
  {
    if 0 <= KeyIndex(s, k) {
      assert Names(s)[KeyIndex(s, k)] == k;
    }
  }

  /** One merge step keeps the names in place and adds the new item's name only when it is new. */
  lemma AbsorbNames(m: seq<Item>, x: Item)
    ensures Names(Absorb(m, x)) == if 0 <= KeyIndex(m, NameKey(x)) then Names(m) else Names(m) + [NameKey(x)]
  {
    if KeyIndex(m, NameKey(x)) < 0 {
      NamesSnoc(m, x);
    }
  }

  /** The names of `ks` in order of first appearance, each once. */
  function FirstSeen(ks: seq<string>): (r: seq<string>)
    ensures forall k :: k in r <==> k in ks
  {
    if ks == [] then []
    else
      var d := FirstSeen(ks[..|ks| - 1]);
      assert ks == ks[..|ks| - 1] + [ks[|ks| - 1]];
      if ks[|ks| - 1] in d then d else d + [ks[|ks| - 1]]
  }

  lemma FirstSeenSnoc(ks: seq<string>, k: string)
    ensures FirstSeen(ks + [k]) == if k in FirstSeen(ks) then FirstSeen(ks) else FirstSeen(ks) + [k]
  {
    assert (ks + [k])[..|ks|] == ks;
  }

  /**
   * The merged items come in first-seen order: their names are the input
   * names with every repetition after the first dropped.
   */
  lemma {:induction false} MergeFirstSeenOrder(xs: seq<Item>)
    ensures Names(MergeAll(xs)) == FirstSeen(Names(xs))
  {
    if xs != [] {
      var n := |xs| - 1;
      var x := xs[n];
      MergeFirstSeenOrder(xs[..n]);
      assert xs == xs[..n] + [x];
      MergeAllSnoc(xs[..n], x);
      NamesSnoc(xs[..n], x);
      FirstSeenSnoc(Names(xs[..n]), NameKey(x));
      var m := MergeAll(xs[..n]);
      AbsorbNames(m, x);
      KeyIndexFindsNames(m, NameKey(x));
    }
  }

  /** A name is present in the merge exactly when some input item has it. */
  lemma MergeKeepsNames(xs: seq<Item>, k: string)
    ensures 0 <= KeyIndex(MergeAll(xs), k) <==> 0 <= KeyIndex(xs, k)
  {
    MergeFirstSeenOrder(xs);
    KeyIndexFindsNames(MergeAll(xs), k);
    KeyIndexFindsNames(xs, k);
  }

  /** After merging, at most one item carries each name. */
  lemma {:induction false} MergeHasUniqueNames(xs: seq<Item>)
    ensures UniqueNames(MergeAll(xs))
  {
    if xs != [] {
      var n := |xs| - 1;
      MergeHasUniqueNames(xs[..n]);
      AbsorbKeepsUniqueNames(MergeAll(xs[..n]), xs[n]);
    }
  }

  lemma AbsorbKeepsUniqueNames(m: seq<Item>, x: Item)
    requires UniqueNames(m)
    ensures UniqueNames(Absorb(m, x))
  {
    var m' := Absorb(m, x);
    if 0 <= KeyIndex(m, NameKey(x)) {
      assert forall j :: 0 <= j < |m| ==> NameKey(m'[j]) == NameKey(m[j]);
    }
  }

  /** The owners of the items named `k`, in input order. */
  function OwnersNamed(xs: seq<Item>, k: string): seq<string> {
    if xs == [] then []
    else OwnersNamed(xs[..|xs| - 1], k) + (if NameKey(xs[|xs| - 1]) == k then [xs[|xs| - 1].owner] else [])
  }

  /** The owners joined with ", ", as the merge builds the owner attribute. */
  function JoinOwners(owners: seq<string>): string {
    if |owners| <= 1 then (if owners == [] then "" else owners[0])
    else JoinOwners(owners[..|owners| - 1]) + ", " + owners[|owners| - 1]
  }

  lemma OwnersNamedSnoc(xs: seq<Item>, x: Item, k: string)
    ensures OwnersNamed(xs + [x], k) == OwnersNamed(xs, k) + (if NameKey(x) == k then [x.owner] else [])
  {
    assert (xs + [x])[..|xs|] == xs;
  }

  lemma {:induction false} OwnersNamedPresent(xs: seq<Item>, k: string)
    ensures OwnersNamed(xs, k) != [] <==> 0 <= KeyIndex(xs, k)
  {
    if xs != [] {
      OwnersNamedPresent(xs[..|xs| - 1], k);
    }
  }

  lemma JoinOwnersSnoc(owners: seq<string>, o: string)
    requires owners != []
    ensures JoinOwners(owners + [o]) == JoinOwners(owners) + ", " + o
  {
    assert (owners + [o])[..|owners|] == owners;
  }

  /**
   * `y` is what the merge of `xs` makes of the name `NameKey(y)`: the first
   * input item with that name, its owner replaced by the owners of all input
   * items with that name, in input order, joined with ", ".
   */
  ghost predicate MergedFrom(xs: seq<Item>, y: Item) {
    var k := NameKey(y);
    0 <= KeyIndex(xs, k) && y == xs[KeyIndex(xs, k)].(owner := JoinOwners(OwnersNamed(xs, k)))
  }

  lemma MergedFromOther(xs: seq<Item>, x: Item, y: Item)
    requires MergedFrom(xs, y) && NameKey(y) != NameKey(x)
    ensures MergedFrom(xs + [x], y)
  {
    var k := NameKey(y);
    KeyIndexSnoc(xs, x, k);
    OwnersNamedSnoc(xs, x, k);
    assert OwnersNamed(xs + [x], k) == OwnersNamed(xs, k) + [] == OwnersNamed(xs, k);
    assert (xs + [x])[KeyIndex(xs, k)] == xs[KeyIndex(xs, k)];
  }

  lemma MergedFromRepeat(xs: seq<Item>, x: Item, y: Item)
    requires MergedFrom(xs, y) && NameKey(y) == NameKey(x)
    ensures MergedFrom(xs + [x], y.(owner := y.owner + ", " + x.owner))
  {
    var k := NameKey(y);
    KeyIndexSnoc(xs, x, k);
    OwnersNamedSnoc(xs, x, k);
    OwnersNamedPresent(xs, k);
    JoinOwnersSnoc(OwnersNamed(xs, k), x.owner);
    assert (xs + [x])[KeyIndex(xs, k)] == xs[KeyIndex(xs, k)];
  }

  lemma MergedFromNew(xs: seq<Item>, x: Item)
    requires KeyIndex(xs, NameKey(x)) < 0
    ensures MergedFrom(xs + [x], x)
  {
    KeyIndexSnoc(xs, x, NameKey(x));
    OwnersNamedSnoc(xs, x, NameKey(x));
    OwnersNamedPresent(xs, NameKey(x));
  }

  /**
   * Each merged item is the first input item with its name, except that its
   * owner lists the owners of every input item with that name, in input
   * order, joined with ", ".
   */
  lemma {:induction false} MergedItemContents(xs: seq<Item>)
    ensures forall i :: 0 <= i < |MergeAll(xs)| ==> MergedFrom(xs, MergeAll(xs)[i])
  {
    if xs != [] {
      var n := |xs| - 1;
      var x := xs[n];
      var xs' := xs[..n];
      assert xs == xs' + [x];
      MergedItemContents(xs');
      MergeAllSnoc(xs', x);
      MergeHasUniqueNames(xs');
      MergeKeepsNames(xs', NameKey(x));
      var m := MergeAll(xs');
      var m' := MergeAll(xs);
      var p := KeyIndex(m, NameKey(x));
      forall i | 0 <= i < |m'| ensures MergedFrom(xs, m'[i]) {
        if i < |m| && i != p {
          assert m'[i] == m[i] && MergedFrom(xs', m[i]);
          MergedFromOther(xs', x, m[i]);
        } else if 0 <= p {
          assert m'[i] == m[p].(owner := m[p].owner + ", " + x.owner) && MergedFrom(xs', m[p]);
          MergedFromRepeat(xs', x, m[p]);
        } else {
          assert m'[i] == x;
          MergedFromNew(xs', x);
        }
      }
    }
  }

  /**
   * The effect of one more item on the merge: a repeated name extends the
   * present item's owner by ", " and the new owner and changes nothing else;
   * a new name is appended at the end.
   */
  lemma MergeStep(xs: seq<Item>, x: Item)
    ensures var m, m' := MergeAll(xs), MergeAll(xs + [x]);
      var p := KeyIndex(m, NameKey(x));
      if 0 <= KeyIndex(xs, NameKey(x)) then
        && 0 <= p && |m'| == |m|
        && m'[p] == m[p].(owner := m[p].owner + ", " + x.owner)
        && forall j :: 0 <= j < |m| && j != p ==> m'[j] == m[j]
      else
        m' == m + [x]
  {
    MergeAllSnoc(xs, x);
    MergeKeepsNames(xs, NameKey(x));
  }

  /** When no two input items share a name, the merge returns its input. */
  lemma {:induction false} MergeOfDistinctNames(xs: seq<Item>)
    requires UniqueNames(xs)
    ensures MergeAll(xs) == xs
  {
    if xs != [] {
      var n := |xs| - 1;
      assert UniqueNames(xs[..n]);
      MergeOfDistinctNames(xs[..n]);
      MergeAllSnoc(xs[..n], xs[n]);
      assert xs == xs[..n] + [xs[n]];
    }
  }

  lemma {:induction false} FlattenLength(batches: seq<seq<Item>>)
    ensures |Flatten(batches)| == TotalLength(batches)
  {
    if batches != [] {
      FlattenLength(batches[..|batches| - 1]);
    }
  }

  /** When all names are distinct, the merge has as many items as all batches together. */
  lemma MergeLengthOfDistinct(batches: seq<seq<Item>>)
    requires UniqueNames(Flatten(batches))
    ensures |MergeAll(Flatten(batches))| == TotalLength(batches)
  {
    MergeOfDistinctNames(Flatten(batches));
    FlattenLength(batches);
  }

  lemma {:induction false} FlattenAppend(a: seq<seq<Item>>, b: seq<seq<Item>>)
    ensures Flatten(a + b) == Flatten(a) + Flatten(b)
  {
    if b == [] {
      assert a + b == a;
    } else {
      var n := |b| - 1;
      FlattenAppend(a, b[..n]);
      assert (a + b)[..|a + b| - 1] == a + b[..n];
      assert (a + b)[|a + b| - 1] == b[n];
      calc {
        Flatten(a + b);
        Flatten(a + b[..n]) + b[n];
        Flatten(a) + Flatten(b[..n]) + b[n];
        Flatten(a) + (Flatten(b[..n]) + b[n]);
        Flatten(a) + Flatten(b);
      }
    }
  }

  /** A batch with no items (a response that is not XML) leaves the merge unchanged, wherever it stands. */
  lemma EmptyBatchChangesNothing(batches: seq<seq<Item>>, i: nat)
    requires i <= |batches|
    ensures MergeAll(Flatten(batches[..i] + [[]] + batches[i..])) == MergeAll(Flatten(batches))
  {
    FlattenSkipsEmpty(batches, i);
  }

  lemma FlattenSkipsEmpty(batches: seq<seq<Item>>, i: nat)
    requires i <= |batches|
    ensures Flatten(batches[..i] + [[]] + batches[i..]) == Flatten(batches)
  {
    var front, back := batches[..i], batches[i..];
    var mid := front + [[]];
    assert mid[..|mid| - 1] == front;
    assert Flatten(mid) == Flatten(front);
    FlattenAppend(mid, back);
    FlattenAppend(front, back);
    assert front + back == batches;
  }

  /**
   * Three users each own one copy of the same game: the merge holds one item
   * for it, owned by all three in request order.
   */
  lemma SameGameForThreeUsers(game: Item, batches: seq<seq<Item>>)
    requires batches == [[game.(owner := "ann")], [game.(owner := "bob")], [game.(owner := "cy")]]
    ensures MergeAll(Flatten(batches)) == [game.(owner := "ann, bob, cy")]
  {
    var a, b, c := game.(owner := "ann"), game.(owner := "bob"), game.(owner := "cy");
    FlattenSingletons(batches, a, b, c);
    MergeCopies(a, b, c);
    assert "ann" + ", " + "bob" + ", " + "cy" == "ann, bob, cy";
  }

  lemma FlattenSingletons(batches: seq<seq<Item>>, a: Item, b: Item, c: Item)
    requires batches == [[a], [b], [c]]
    ensures Flatten(batches) == [a] + [b] + [c]
  {
    FlattenSnoc(batches, 0);
    FlattenSnoc(batches, 1);
    FlattenSnoc(batches, 2);
    assert batches[..0] == [] && batches[..3] == batches;
  }

  lemma MergeCopies(a: Item, b: Item, c: Item)
    requires b == a.(owner := b.owner) && c == a.(owner := c.owner)
    ensures MergeAll([a] + [b] + [c]) == [a.(owner := a.owner + ", " + b.owner + ", " + c.owner)]
  {
    MergeAllSnoc([], a);
    assert [] + [a] == [a];
    MergeAllSnoc([a], b);
    AbsorbSameName(a, b);
    var ab := a.(owner := a.owner + ", " + b.owner);
    MergeAllSnoc([a] + [b], c);
    AbsorbSameName(ab, c);
  }

  lemma AbsorbSameName(m: Item, x: Item)
    requires NameKey(x) == NameKey(m)
    ensures Absorb([m], x) == [m.(owner := m.owner + ", " + x.owner)]
  {
    assert KeyIndex([m], NameKey(x)) == 0;
  }
}

=== FILE: player_filter.dfy ===
/**
 * The player-count filter: `isValidPlayerCount` and the selection step of
 * `filterByPlayerCount`.
 */
module PlayerFilter {
  import opened Items

  /** The `minplayers` bound; a missing `<stats>` node or attribute reads as 0. */
  function MinPlayers(x: Item): int {
    if x.minplayers.Some? then x.minplayers.value else 0
  }

  /** The `maxplayers` bound; a missing `<stats>` node or attribute reads as 0. */
  function MaxPlayers(x: Item): int {
    if x.maxplayers.Some? then x.maxplayers.value else 0
  }

  /** `isValidPlayerCount`: the game can be played by `n` players. */
  predicate IsValidPlayerCount(x: Item, n: int)
    ensures IsValidPlayerCount(x, n) ==> MinPlayers(x) <= MaxPlayers(x)
  {
    MinPlayers(x) <= n <= MaxPlayers(x)
  }

  /**
   * The player counts a game accepts form one unbroken range: a count
   * between two accepted counts is accepted.
   */
  lemma ValidCountsAreContiguous(x: Item, lo: int, n: int, hi: int)
    requires IsValidPlayerCount(x, lo) && IsValidPlayerCount(x, hi) && lo <= n <= hi
    ensures IsValidPlayerCount(x, n)
  {
  }

  /** A game rated for 2 to 4 players accepts exactly 2, 3 and 4. */
  lemma TwoToFourPlayers(x: Item, n: int)
    requires x.minplayers == Some(2) && x.maxplayers == Some(4)
    ensures IsValidPlayerCount(x, n) <==> n in {2, 3, 4}
  {
  }

  /** A game without player bounds matches only a count of 0. */
  lemma NoBoundsMatchesOnlyZero(x: Item, n: int)
    requires x.minplayers.None? && x.maxplayers.None?
    ensures IsValidPlayerCount(x, n) <==> n == 0
  {
  }

  /** `unfilteredCollectionItems.filter(item => isValidPlayerCount(item, n))`. */
  function SelectPlayable(s: seq<Item>, n: int): (r: seq<Item>)
    ensures |r| <= |s|
  {
    if s == [] then []
    else SelectPlayable(s[..|s| - 1], n) + (if IsValidPlayerCount(s[|s| - 1], n) then [s[|s| - 1]] else [])
  }

  /**
   * The filter keeps each item that accepts `n` as often as it occurs and
   * drops every other item.
   */
  lemma {:induction false} SelectPlayableCounts(s: seq<Item>, n: int)
    ensures forall x :: multiset(SelectPlayable(s, n))[x] == if IsValidPlayerCount(x, n) then multiset(s)[x] else 0
  {
    if s != [] {
      var s' := s[..|s| - 1];
      assert s == s' + [s[|s| - 1]];
      SelectPlayableCounts(s', n);
    }
  }

  /** Filtering keeps order: filtering a concatenation filters each part. */
  lemma {:induction false} SelectPlayableAppend(s: seq<Item>, t: seq<Item>, n: int)
    ensures SelectPlayable(s + t, n) == SelectPlayable(s, n) + SelectPlayable(t, n)
    decreases |t|
  {
    if t == [] {
      assert s + t == s;
    } else {
      var t' := t[..|t| - 1];
      var y := t[|t| - 1];
      assert (s + t)[..|s + t| - 1] == s + t';
      assert (s + t)[|s + t| - 1] == y;
      SelectPlayableAppend(s, t', n);
    }
  }

  /** A list every item of which accepts `n` passes the filter unchanged. */
  lemma {:induction false} SelectAllPlayable(s: seq<Item>, n: int)
    requires forall i :: 0 <= i < |s| ==> IsValidPlayerCount(s[i], n)
    ensures SelectPlayable(s, n) == s
  {
    if s != [] {
      SelectAllPlayable(s[..|s| - 1], n);
    }
  }

  /** Filtering twice for the same count is filtering once. */
  lemma SelectPlayableIdempotent(s: seq<Item>, n: int)
    ensures SelectPlayable(SelectPlayable(s, n), n) == SelectPlayable(s, n)
  {
    var r := SelectPlayable(s, n);
    SelectPlayableCounts(s, n);
    forall i | 0 <= i < |r| ensures IsValidPlayerCount(r[i], n) {
      assert multiset(r)[r[i]] > 0;
    }
    SelectAllPlayable(r, n);
  }
}

=== FILE: sorting.dfy ===
/**
 * Sorting the item list by score or by name (`sortNodeArrayByChildValue`,
 * `sortNodeArrayByChildAttributeValue`, `ApplySort`).
 *
 * `Array.prototype.sort` is stable; the model sorts with a stable insertion
 * sort whose result is `StableSort`, a left fold of `InsertSorted`.
 */
module Sorting {
  import opened Items
  import opened Text

  /** The child the comparator reads: the `<name>` text or the `value` attribute of `<average>`. */
  datatype Child = NameText | AverageValue

  /** A sort: which child it compares and whether ascending. */
  datatype Order = Order(child: Child, ascending: bool)

  /** The trimmed text the comparator compares, None when the item lacks the child. */
  function SortKey(c: Child, x: Item): Option<string> {
    match c
    case NameText => if x.name.Some? then Some(Trim(x.name.value)) else None
    case AverageValue => if x.average.Some? then Some(Trim(x.average.value)) else None
  }

  /**
   * An item has a key exactly when it has the child, and the key is already
   * trimmed: trimming it again changes nothing.
   */
  lemma SortKeyIsTrimmed(c: Child, x: Item)
    ensures SortKey(c, x).Some? <==> (if c == NameText then x.name.Some? else x.average.Some?)
    ensures SortKey(c, x).Some? ==> Trim(SortKey(c, x).value) == SortKey(c, x).value
  {
    var t := if c == NameText then x.name else x.average;
    if t.Some? {
      TrimIdempotent(t.value);
    }
  }

  /**
   * The comparator handed to `sort`: negative when `x` belongs before `y`,
   * 0 when either item lacks the child.
   */
  function Compare(o: Order, x: Item, y: Item): (r: int)
    ensures -1 <= r <= 1
  {
    var kx, ky := SortKey(o.child, x), SortKey(o.child, y);
    if kx.None? || ky.None? then 0
    else if o.ascending then LocaleCompare(kx.value, ky.value)
    else LocaleCompare(ky.value, kx.value)
  }

  /** Swapping the items negates the comparator. */
  lemma CompareFlip(o: Order, x: Item, y: Item)
    ensures Compare(o, x, y) == -Compare(o, y, x)
  {
    var kx, ky := SortKey(o.child, x), SortKey(o.child, y);
    if kx.Some? && ky.Some? {
      LocaleCompareFlip(kx.value, ky.value);
    }
  }

  /** The comparator is nonzero only between two items that have the child with different values. */
  lemma CompareNonzero(o: Order, x: Item, y: Item)
    requires Compare(o, x, y) != 0
    ensures SortKey(o.child, x).Some? && SortKey(o.child, y).Some?
    ensures SortKey(o.child, x) != SortKey(o.child, y)
  {
    var kx, ky := SortKey(o.child, x), SortKey(o.child, y);
    LocaleCompareZero(kx.value, ky.value);
    LocaleCompareZero(ky.value, kx.value);
  }

  /** Among items that all have the child, "no later than" is transitive. */
  lemma CompareTransitive(o: Order, x: Item, y: Item, z: Item)
    requires SortKey(o.child, x).Some? && SortKey(o.child, y).Some? && SortKey(o.child, z).Some?
    requires Compare(o, x, y) <= 0 && Compare(o, y, z) <= 0
    ensures Compare(o, x, z) <= 0
  {
    var kx, ky, kz := SortKey(o.child, x).value, SortKey(o.child, y).value, SortKey(o.child, z).value;
    if o.ascending {
      LocaleCompareTransitive(kx, ky, kz);
    } else {
      LocaleCompareTransitive(kz, ky, kx);
    }
  }

  /**
   * Inserts `x` after `p`, moving it left past the run of last items the
   * comparator puts after it and stopping at the first one it does not: one
   * pass of the insertion sort.
   */
  function InsertSorted(o: Order, p: seq<Item>, x: Item): (r: seq<Item>)
    ensures |r| == |p| + 1
    ensures r[|r| - 1] == x || (p != [] && r[|r| - 1] == p[|p| - 1])
  {
    if p != [] && Compare(o, p[|p| - 1], x) > 0 then
      InsertSorted(o, p[..|p| - 1], x) + [p[|p| - 1]]
    else
      p + [x]
  }

  /** The stable sort of `s`. */
  function StableSort(o: Order, s: seq<Item>): (r: seq<Item>)
    ensures |r| == |s|
  {
    if s == [] then [] else InsertSorted(o, StableSort(o, s[..|s| - 1]), s[|s| - 1])
  }

  /** Inserting adds exactly the inserted item. */
  lemma {:induction false} InsertSortedPermutes(o: Order, p: seq<Item>, x: Item)
    ensures multiset(InsertSorted(o, p, x)) == multiset(p) + multiset{x}
  {
    if p != [] && Compare(o, p[|p| - 1], x) > 0 {
      var p' := p[..|p| - 1];
      assert p == p' + [p[|p| - 1]];
      InsertSortedPermutes(o, p', x);
    }
  }

  /** The sort returns a permutation of its input. */
  lemma {:induction false} StableSortPermutes(o: Order, s: seq<Item>)
    ensures multiset(StableSort(o, s)) == multiset(s)
  {
    if s != [] {
      var s' := s[..|s| - 1];
      assert s == s' + [s[|s| - 1]];
      StableSortPermutes(o, s');
      InsertSortedPermutes(o, StableSort(o, s'), s[|s| - 1]);
    }
  }

  /** Each item is no later than the next one. */
  predicate AdjacentInOrder(o: Order, s: seq<Item>) {
    forall i :: 0 < i < |s| ==> Compare(o, s[i - 1], s[i]) <= 0
  }

  /** Each item is no later than every item after it. */
  predicate InOrder(o: Order, s: seq<Item>) {
    forall i, j :: 0 <= i < j < |s| ==> Compare(o, s[i], s[j]) <= 0
  }

  /** Every item has the child the comparator reads. */
  predicate AllHaveKey(c: Child, s: seq<Item>) {
    forall x :: x in s ==> SortKey(c, x).Some?
  }

  lemma {:induction false} InsertKeepsAdjacentOrder(o: Order, p: seq<Item>, x: Item)
    requires AdjacentInOrder(o, p)
    ensures AdjacentInOrder(o, InsertSorted(o, p, x))
  {
    if p != [] && Compare(o, p[|p| - 1], x) > 0 {
      var p' := p[..|p| - 1];
      var y := p[|p| - 1];
      InsertKeepsAdjacentOrder(o, p', x);
      var q := InsertSorted(o, p', x);
      CompareFlip(o, y, x);
      assert q[|q| - 1] == x || q[|q| - 1] == p'[|p'| - 1];
      assert Compare(o, q[|q| - 1], y) <= 0;
      var r := q + [y];
      forall i | 0 < i < |r| ensures Compare(o, r[i - 1], r[i]) <= 0 {
        if i < |q| {
          assert r[i - 1] == q[i - 1] && r[i] == q[i];
        }
      }
    }
  }

  /** The sort leaves every item no later than the next, whatever the items. */
  lemma {:induction false} StableSortAdjacentInOrder(o: Order, s: seq<Item>)
    ensures AdjacentInOrder(o, StableSort(o, s))
  {
    if s != [] {
      StableSortAdjacentInOrder(o, s[..|s| - 1]);
      InsertKeepsAdjacentOrder(o, StableSort(o, s[..|s| - 1]), s[|s| - 1]);
    }
  }

  /** When every item has the child, order between neighbours is order between all pairs. */
  lemma {:induction false} AdjacentOrderIsOrder(o: Order, s: seq<Item>)
    requires AllHaveKey(o.child, s) && AdjacentInOrder(o, s)
    ensures InOrder(o, s)
  {
    if s != [] {
      var n := |s| - 1;
      var s' := s[..n];
      assert AllHaveKey(o.child, s') by {
        forall x | x in s' ensures SortKey(o.child, x).Some? {
          assert x in s;
        }
      }
      AdjacentOrderIsOrder(o, s');
      forall i, j | 0 <= i < j < |s| ensures Compare(o, s[i], s[j]) <= 0 {
        if j < n {
          assert s[i] == s'[i] && s[j] == s'[j];
        } else if i < n - 1 {
          assert s[i] == s'[i] && s[n - 1] == s'[n - 1];
          assert s[i] in s && s[n - 1] in s && s[n] in s;
          CompareTransitive(o, s[i], s[n - 1], s[n]);
        }
      }
    }
  }

  /** A sort on a child every item has puts every item no later than every item after it. */
  lemma StableSortInOrder(o: Order, s: seq<Item>)
    requires AllHaveKey(o.child, s)
    ensures InOrder(o, StableSort(o, s))
  {
    var r := StableSort(o, s);
    StableSortKeepsKeys(o, s);
    StableSortAdjacentInOrder(o, s);
    AdjacentOrderIsOrder(o, r);
  }

  /** Sorting keeps every item's key, so a list whose items all have the child still has. */
  lemma StableSortKeepsKeys(o: Order, s: seq<Item>)
    requires AllHaveKey(o.child, s)
    ensures AllHaveKey(o.child, StableSort(o, s))
  {
    var r := StableSort(o, s);
    StableSortPermutes(o, s);
    forall x | x in r ensures SortKey(o.child, x).Some? {
      assert x in multiset(r);
    }
  }

  /** Sorting a list that is already in order changes nothing. */
  lemma {:induction false} SortedIsFixed(o: Order, s: seq<Item>)
    requires AdjacentInOrder(o, s)
    ensures StableSort(o, s) == s
  {
    if s != [] {
      var n := |s| - 1;
      var s' := s[..n];
      assert AdjacentInOrder(o, s') by {
        forall i | 0 < i < n ensures Compare(o, s'[i - 1], s'[i]) <= 0 {
          assert s'[i - 1] == s[i - 1] && s'[i] == s[i];
        }
      }
      SortedIsFixed(o, s');
      InsertStop(o, s', s[n]);
      assert s == s' + [s[n]];
    }
  }

  /** Sorting twice by the same order is sorting once. */
  lemma StableSortIdempotent(o: Order, s: seq<Item>)
    ensures StableSort(o, StableSort(o, s)) == StableSort(o, s)
  {
    StableSortAdjacentInOrder(o, s);
    SortedIsFixed(o, StableSort(o, s));
  }

  /** The items of `s` whose sort key is `k`, in order. */
  function WithKey(c: Child, s: seq<Item>, k: Option<string>): seq<Item> {
    if s == [] then []
    else WithKey(c, s[..|s| - 1], k) + (if SortKey(c, s[|s| - 1]) == k then [s[|s| - 1]] else [])
  }

  lemma WithKeySnoc(c: Child, s: seq<Item>, x: Item, k: Option<string>)
    ensures WithKey(c, s + [x], k) == WithKey(c, s, k) + (if SortKey(c, x) == k then [x] else [])
  {
    assert (s + [x])[..|s|] == s;
  }

  lemma {:induction false} InsertIsStable(o: Order, p: seq<Item>, x: Item, k: Option<string>)
    ensures WithKey(o.child, InsertSorted(o, p, x), k) == WithKey(o.child, p + [x], k)
  {
    var c := o.child;
    if p != [] && Compare(o, p[|p| - 1], x) > 0 {
      var p' := p[..|p| - 1];
      var y := p[|p| - 1];
      assert p == p' + [y];
      InsertIsStable(o, p', x, k);
      CompareNonzero(o, y, x);
      WithKeySnoc(c, InsertSorted(o, p', x), y, k);
      WithKeySnoc(c, p', x, k);
      WithKeySnoc(c, p', y, k);
      WithKeySnoc(c, p, x, k);
    }
  }

  /**
   * The sort is stable: for every key value, the items with that value (and
   * the items without the child) keep their relative order.
   */
  lemma {:induction false} StableSortIsStable(o: Order, s: seq<Item>, k: Option<string>)
    ensures WithKey(o.child, StableSort(o, s), k) == WithKey(o.child, s, k)
  {
    if s != [] {
      var s' := s[..|s| - 1];
      var x := s[|s| - 1];
      assert s == s' + [x];
      StableSortIsStable(o, s', k);
      StableSortSnoc(o, s', x);
      InsertIsStable(o, StableSort(o, s'), x, k);
      WithKeySnoc(o.child, s', x, k);
    }
  }

  /**
   * The array sort of both `sortNodeArrayBy…` functions: a stable insertion
   * sort by adjacent swaps.
   */
  method SortInPlace(a: array<Item>, o: Order)
    modifies a
    ensures a[..] == StableSort(o, old(a[..]))
  {
    ghost var orig := a[..];
    var i := 0;
    while i < a.Length
      invariant 0 <= i <= a.Length
      invariant a[..] == StableSort(o, orig[..i]) + orig[i..]
    {
      SplitAt(o, orig, a[..], i);
      SinkLast(a, o, i);
      StableSortSnoc(o, orig[..i], orig[i]);
      assert orig[..i + 1] == orig[..i] + [orig[i]];
      i := i + 1;
    }
    assert orig[..a.Length] == orig;
  }

  /**
   * Moves `a[i]` left past the run of elements just before it that sort
   * after it, stopping at the first one that does not.
   */
  method SinkLast(a: array<Item>, o: Order, i: nat)
    requires i < a.Length
    modifies a
    ensures a[..] == InsertSorted(o, old(a[..i]), old(a[i])) + old(a[i + 1..])
  {
    ghost var p := a[..i];
    ghost var rest := a[i + 1..];
    var x := a[i];
    OuterStart(p, a[..], i);
    assert p[..i] == p && p[i..] == [];
    var j := i;
    while 0 < j && Compare(o, a[j - 1], x) > 0
      invariant 0 <= j <= i
      invariant a[..] == p[..j] + [x] + p[j..] + rest
      invariant InsertSorted(o, p, x) == InsertSorted(o, p[..j], x) + p[j..]
    {
      ghost var before := a[..];
      SeqAt(p, x, rest, j);
      InsertStep(o, p, x, j);
      a[j - 1], a[j] := x, a[j - 1];
      assert a[..] == before[j - 1 := x][j := p[j - 1]];
      SwapStep(p, x, rest, j);
      j := j - 1;
    }
    if 0 < j {
      SeqAt(p, x, rest, j);
    }
    InsertStop(o, p[..j], x);
  }

  lemma SplitAt(o: Order, orig: seq<Item>, cur: seq<Item>, i: nat)
    requires i < |orig| && cur == StableSort(o, orig[..i]) + orig[i..]
    ensures cur[..i] == StableSort(o, orig[..i]) && cur[i] == orig[i] && cur[i + 1..] == orig[i + 1..]
  {
  }

  lemma OuterStart(p: seq<Item>, cur: seq<Item>, i: nat)
    requires i < |cur| && p == cur[..i]
    ensures cur == p[..i] + [cur[i]] + p[i..] + cur[i + 1..]
  {
    assert cur == cur[..i] + [cur[i]] + cur[i + 1..];
  }

  lemma SeqAt(p: seq<Item>, x: Item, rest: seq<Item>, j: nat)
    requires 0 < j <= |p|
    ensures (p[..j] + [x] + p[j..] + rest)[j - 1] == p[j - 1]
  {
  }

  lemma SwapStep(p: seq<Item>, x: Item, rest: seq<Item>, j: nat)
    requires 0 < j <= |p|
    ensures (p[..j] + [x] + p[j..] + rest)[j - 1 := x][j := p[j - 1]] == p[..j - 1] + [x] + p[j - 1..] + rest
  {
    var u := (p[..j] + [x] + p[j..] + rest)[j - 1 := x][j := p[j - 1]];
    var v := p[..j - 1] + [x] + p[j - 1..] + rest;
    assert |u| == |v|;
    forall k | 0 <= k < |u| ensures u[k] == v[k] {
      if k < j - 1 {
      } else if k == j - 1 {
      } else if k == j {
      } else {
        assert u[k] == (p[j..] + rest)[k - j - 1];
      }
    }
  }

  lemma InsertStep(o: Order, p: seq<Item>, x: Item, j: nat)
    requires 0 < j <= |p| && Compare(o, p[j - 1], x) > 0
    ensures InsertSorted(o, p[..j], x) + p[j..] == InsertSorted(o, p[..j - 1], x) + p[j - 1..]
  {
    assert p[..j][..j - 1] == p[..j - 1];
    assert p[j - 1..] == [p[j - 1]] + p[j..];
  }

  /** Where `InsertSorted` puts `x`: after the last item that does not sort after it. */
  function InsertPos(o: Order, p: seq<Item>, x: Item): (k: nat)
    ensures k <= |p|
  {
    if p != [] && Compare(o, p[|p| - 1], x) > 0 then InsertPos(o, p[..|p| - 1], x) else |p|
  }

  /**
   * An insertion puts `x` just before the run of last items the comparator
   * puts after it, and just after the first item, counting from the end,
   * that it does not put after `x`; the other items keep their order.
   */
  lemma {:induction false} InsertSortedAt(o: Order, p: seq<Item>, x: Item)
    ensures var k := InsertPos(o, p, x);
      && InsertSorted(o, p, x) == p[..k] + [x] + p[k..]
      && (forall j :: k <= j < |p| ==> Compare(o, p[j], x) > 0)
      && (k == 0 || Compare(o, p[k - 1], x) <= 0)
  {
    if p != [] && Compare(o, p[|p| - 1], x) > 0 {
      var p' := p[..|p| - 1];
      var y := p[|p| - 1];
      InsertSortedAt(o, p', x);
      var k := InsertPos(o, p', x);
      assert InsertPos(o, p, x) == k;
      assert InsertSorted(o, p, x) == InsertSorted(o, p', x) + [y];
      assert p'[..k] == p[..k];
      assert p'[k..] + [y] == p[k..];
      forall j | k <= j < |p|
        ensures Compare(o, p[j], x) > 0
      {
        if j < |p| - 1 {
          assert p[j] == p'[j];
        }
      }
      if 0 < k {
        assert p[k - 1] == p'[k - 1];
      }
    } else {
      assert p[..|p|] == p;
    }
  }

  lemma InsertStop(o: Order, q: seq<Item>, x: Item)
    requires q == [] || Compare(o, q[|q| - 1], x) <= 0
    ensures InsertSorted(o, q, x) == q + [x]
  {
  }

  lemma StableSortSnoc(o: Order, s: seq<Item>, x: Item)
    ensures StableSort(o, s + [x]) == InsertSorted(o, StableSort(o, s), x)
  {
    assert (s + [x])[..|s|] == s;
  }

  /** The sort `ApplySort` runs for a sort field, None for a field it does not know. */
  function OrderFor(field: string): (r: Option<Order>)
    ensures r.Some? <==> field == "averageScore" || field == "alphabetical"
    ensures r.Some? ==> (r.value.ascending <==> r.value.child == NameText)
  {
    if field == "averageScore" then Some(Order(AverageValue, false))
    else if field == "alphabetical" then Some(Order(NameText, true))
    else None
  }

  /** The array contents after `ApplySort(field)`: sorted for a known field, untouched otherwise. */
  function Resorted(field: string, s: seq<Item>): seq<Item> {
    if OrderFor(field).Some? then StableSort(OrderFor(field).value, s) else s
  }

  /** What `ApplySort(field)` returns: the sorted array for a known field, an empty one otherwise. */
  function ApplySortResult(field: string, s: seq<Item>): seq<Item> {
    if OrderFor(field).Some? then StableSort(OrderFor(field).value, s) else []
  }

  /**
   * `ApplySort`: sorts `a` in place by score (descending) or by name
   * (ascending) and returns it; any other field leaves `a` alone and returns
   * a new empty array.
   */
  method ApplySort(a: array<Item>, field: string) returns (r: array<Item>)
    modifies a
    ensures a[..] == Resorted(field, old(a[..]))
    ensures OrderFor(field).Some? ==> r == a
    ensures OrderFor(field).None? ==> fresh(r) && r.Length == 0
  {
    if field == "averageScore" {
      SortInPlace(a, Order(AverageValue, false));
      r := a;
    } else if field == "alphabetical" {
      SortInPlace(a, Order(NameText, true));
      r := a;
    } else {
      r := new Item[0];
    }
  }

  /** Both sorts return a permutation of their input; any other field returns nothing. */
  lemma ApplySortPermutes(field: string, s: seq<Item>)
    ensures multiset(Resorted(field, s)) == multiset(s)
    ensures multiset(ApplySortResult(field, s)) == if OrderFor(field).Some? then multiset(s) else multiset{}
  {
    if OrderFor(field).Some? {
      StableSortPermutes(OrderFor(field).value, s);
    }
  }

  /** Re-sorting by the same field changes nothing. */
  lemma ResortedIdempotent(field: string, s: seq<Item>)
    ensures Resorted(field, Resorted(field, s)) == Resorted(field, s)
  {
    if OrderFor(field).Some? {
      StableSortIdempotent(OrderFor(field).value, s);
    }
  }

  /** Sorting by score, when every item has an `<average>`, lists trimmed scores from highest to lowest. */
  lemma ScoreSortIsDescending(s: seq<Item>)
    requires forall x :: x in s ==> x.average.Some?
    ensures var r := Resorted("averageScore", s);
      forall i, j :: 0 <= i < j < |r| ==>
        r[i].average.Some? && r[j].average.Some? &&
        LocaleCompare(Trim(r[j].average.value), Trim(r[i].average.value)) <= 0
  {
    var o := Order(AverageValue, false);
    var r := StableSort(o, s);
    assert AllHaveKey(o.child, s);
    StableSortInOrder(o, s);
    StableSortKeepsKeys(o, s);
    forall i, j | 0 <= i < j < |r|
      ensures r[i].average.Some? && r[j].average.Some?
      ensures LocaleCompare(Trim(r[j].average.value), Trim(r[i].average.value)) <= 0
    {
      assert r[i] in r && r[j] in r;
      KeyedCompare(o, r[i], r[j]);
    }
  }

  /** Sorting by name, when every item has a `<name>`, lists trimmed names from lowest to highest. */
  lemma NameSortIsAscending(s: seq<Item>)
    requires forall x :: x in s ==> x.name.Some?
    ensures var r := Resorted("alphabetical", s);
      forall i, j :: 0 <= i < j < |r| ==>
        r[i].name.Some? && r[j].name.Some? &&
        LocaleCompare(Trim(r[i].name.value), Trim(r[j].name.value)) <= 0
  {
    var o := Order(NameText, true);
    var r := StableSort(o, s);
    assert AllHaveKey(o.child, s);
    StableSortInOrder(o, s);
    StableSortKeepsKeys(o, s);
    forall i, j | 0 <= i < j < |r|
      ensures r[i].name.Some? && r[j].name.Some?
      ensures LocaleCompare(Trim(r[i].name.value), Trim(r[j].name.value)) <= 0
    {
      assert r[i] in r && r[j] in r;
      KeyedCompare(o, r[i], r[j]);
    }
  }

  /** Between two items that have the child, the comparator is the string comparison in the sort's direction. */
  lemma KeyedCompare(o: Order, x: Item, y: Item)
    requires SortKey(o.child, x).Some? && SortKey(o.child, y).Some?
    ensures var kx, ky := SortKey(o.child, x).value, SortKey(o.child, y).value;
      Compare(o, x, y) == if o.ascending then LocaleCompare(kx, ky) else LocaleCompare(ky, kx)
  {
  }

  /** Scores "7.5", "8.2" and an empty score sort as "8.2", "7.5", "". */
  lemma ScoreSortExample(a: Item, b: Item, c: Item)
    requires a.average == Some("7.5") && b.average == Some("8.2") && c.average == Some("")
    ensures Resorted("averageScore", [a, b, c]) == [b, a, c]
  {
    var o := Order(AverageValue, false);
    ExampleComparisons(a, b, c);
    StableSortSnoc(o, [], a);
    StableSortSnoc(o, [a], b);
    assert [a] + [b] == [a, b];
    StableSortSnoc(o, [a, b], c);
    assert [a, b] + [c] == [a, b, c];
    assert InsertSorted(o, [a], b) == [b, a];
  }

  lemma ExampleComparisons(a: Item, b: Item, c: Item)
    requires a.average == Some("7.5") && b.average == Some("8.2") && c.average == Some("")
    ensures Compare(Order(AverageValue, false), a, b) == 1
    ensures Compare(Order(AverageValue, false), a, c) == -1
  {
    TrimKeepsTrimmed("7.5");
    TrimKeepsTrimmed("8.2");
    TrimKeepsTrimmed("");
  }

  /**
   * Names compare by character code: upper case before lower case, so
   * "Zoo", "Ark" and "mid" sort as "Ark", "Zoo", "mid".
   */
  lemma NameSortExample(a: Item, b: Item, c: Item)
    requires a.name == Some("Zoo") && b.name == Some("Ark") && c.name == Some("mid")
    ensures Resorted("alphabetical", [a, b, c]) == [b, a, c]
  {
    var o := Order(NameText, true);
    NameComparisons(a, b, c);
    StableSortSnoc(o, [], a);
    StableSortSnoc(o, [a], b);
    assert [a] + [b] == [a, b];
    StableSortSnoc(o, [a, b], c);
    assert [a, b] + [c] == [a, b, c];
    assert InsertSorted(o, [a], b) == [b, a];
  }

  lemma NameComparisons(a: Item, b: Item, c: Item)
    requires a.name == Some("Zoo") && b.name == Some("Ark") && c.name == Some("mid")
    ensures Compare(Order(NameText, true), a, b) == 1
    ensures Compare(Order(NameText, true), a, c) == -1
  {
    TrimKeepsTrimmed("Zoo");
    TrimKeepsTrimmed("Ark");
    TrimKeepsTrimmed("mid");
  }

  /** Scores are compared as text: a score of "9.5" lists before a score of "10". */
  lemma ScoresCompareAsText(a: Item, b: Item)
    requires a.average == Some("10") && b.average == Some("9.5")
    ensures Resorted("averageScore", [a, b]) == [b, a]
  {
    var o := Order(AverageValue, false);
    TrimKeepsTrimmed("10");
    TrimKeepsTrimmed("9.5");
    assert Compare(o, a, b) == 1;
    StableSortSnoc(o, [], a);
    StableSortSnoc(o, [a], b);
    assert [a] + [b] == [a, b];
  }

  /**
   * An item without an `<average>` compares equal to everything, so it is
   * never moved past: it keeps its place instead of going last.
   */
  lemma MissingScoreKeepsPlace(a: Item, b: Item)
    requires a.average.None? && b.average == Some("8.2")
    ensures Resorted("averageScore", [a, b]) == [a, b]
  {
    var o := Order(AverageValue, false);
    StableSortSnoc(o, [], a);
    StableSortSnoc(o, [a], b);
    assert [a] + [b] == [a, b];
  }
}

=== FILE: text.dfy ===
/**
 * String helpers the sort comparators rely on: `String.prototype.trim` and a
 * fixed stand-in for `String.prototype.localeCompare`.
 */
module Text {

  /** The characters `trim` removes: ECMAScript's WhiteSpace and LineTerminator code points. */
  predicate IsTrimmable(c: char) {
    || c == '\t' || c == '\n' || c == '\U{000B}' || c == '\U{000C}' || c == '\r' || c == ' '
    || c == '\U{00A0}' || c == '\U{1680}' || ('\U{2000}' <= c <= '\U{200A}')
    || c == '\U{2028}' || c == '\U{2029}' || c == '\U{202F}' || c == '\U{205F}'
    || c == '\U{3000}' || c == '\U{FEFF}'
  }

  /** Number of trimmable characters at the start of `s`. */
  function LeadingSpace(s: string): (n: nat)
    ensures n <= |s|
    ensures forall k :: 0 <= k < n ==> IsTrimmable(s[k])
    ensures n < |s| ==> !IsTrimmable(s[n])
  {
    if s != [] && IsTrimmable(s[0]) then 1 + LeadingSpace(s[1..]) else 0
  }

  /** Length of `s` once its trailing trimmable characters are dropped. */
  function TrailingStart(s: string): (n: nat)
    ensures n <= |s|
    ensures forall k :: n <= k < |s| ==> IsTrimmable(s[k])
    ensures 0 < n ==> !IsTrimmable(s[n - 1])
  {
    if s != [] && IsTrimmable(s[|s| - 1]) then TrailingStart(s[..|s| - 1]) else |s|
  }

  /**
   * `s.trim()`: the slice of `s` left once every leading and trailing
   * trimmable character is removed; what is left starts and ends with a
   * character that is kept.
   */
  function Trim(s: string): (r: string)
    ensures LeadingSpace(s) + |r| <= |s|
    ensures r == s[LeadingSpace(s)..LeadingSpace(s) + |r|]
    ensures forall k :: 0 <= k < LeadingSpace(s) ==> IsTrimmable(s[k])
    ensures forall k :: LeadingSpace(s) + |r| <= k < |s| ==> IsTrimmable(s[k])
    ensures r != [] ==> !IsTrimmable(r[0]) && !IsTrimmable(r[|r| - 1])
  {
    var t := s[LeadingSpace(s)..];
    t[..TrailingStart(t)]
  }

  /** Trimming a string whose ends are already kept characters changes nothing. */
  lemma TrimKeepsTrimmed(s: string)
    requires s != [] ==> !IsTrimmable(s[0]) && !IsTrimmable(s[|s| - 1])
    ensures Trim(s) == s
  {
    assert LeadingSpace(s) == 0;
    assert s[0..] == s;
  }

  /** Trimming twice is trimming once. */
  lemma TrimIdempotent(s: string)
    ensures Trim(Trim(s)) == Trim(s)
  {
    TrimKeepsTrimmed(Trim(s));
  }

  /**
   * Stand-in for `localeCompare`: lexicographic order on character values,
   * answering -1, 0 or 1 as `a` sorts before, with or after `b`.
   */
  function LocaleCompare(a: string, b: string): (r: int)
    ensures -1 <= r <= 1
  {
    if a == [] then (if b == [] then 0 else -1)
    else if b == [] then 1
    else if a[0] < b[0] then -1
    else if b[0] < a[0] then 1
    else LocaleCompare(a[1..], b[1..])
  }

  /** Swapping the arguments negates the answer. */
  lemma {:induction false} LocaleCompareFlip(a: string, b: string)
    ensures LocaleCompare(a, b) == -LocaleCompare(b, a)
  {
    if a != [] && b != [] && a[0] == b[0] {
      LocaleCompareFlip(a[1..], b[1..]);
    }
  }

  /** The answer is 0 exactly for equal strings. */
  lemma {:induction false} LocaleCompareZero(a: string, b: string)
    ensures LocaleCompare(a, b) == 0 <==> a == b
  {
    if a != [] && b != [] && a[0] == b[0] {
      LocaleCompareZero(a[1..], b[1..]);
      assert a == [a[0]] + a[1..];
      assert b == [b[0]] + b[1..];
    }
  }

  /** "Sorts no later than" is transitive. */
  lemma {:induction false} LocaleCompareTransitive(a: string, b: string, c: string)
    requires LocaleCompare(a, b) <= 0 && LocaleCompare(b, c) <= 0
    ensures LocaleCompare(a, c) <= 0
  {
    if a != [] && b != [] && c != [] && a[0] == b[0] == c[0] {
      LocaleCompareTransitive(a[1..], b[1..], c[1..]);
    }
  }
}

=== FILE: view.dfy ===
/**
 * The view state of the `App` component: the merged collection as loaded
 * (`unfilteredCollectionItems`), the list on screen
 * (`filteredCollectionItems`) and the sort field, with the three handlers
 * that change them.
 */
module View {
  import opened Items
  import opened Merge
  import opened Sorting
  import opened PlayerFilter

  /**
   * The list `filterByPlayerCount(n)` puts on screen: every item for a
   * negative count, otherwise the items that accept `n`, sorted by `field`
   * (nothing for a field `ApplySort` does not know).
   */
  function FilteredView(field: string, u: seq<Item>, n: int): (r: seq<Item>)
    ensures |r| <= |u|
    ensures OrderFor(field).None? ==> r == []
  {
    ApplySortResult(field, if n < 0 then u else SelectPlayable(u, n))
  }

  /**
   * How often each item is on screen after `filterByPlayerCount(n)`: as often
   * as in the loaded list when the count is negative or the item accepts `n`,
   * never otherwise, and never under an unknown sort field.
   */
  lemma FilteredViewCounts(field: string, u: seq<Item>, n: int)
    ensures forall x ::
              multiset(FilteredView(field, u, n))[x] ==
                if OrderFor(field).None? then 0
                else if n < 0 || IsValidPlayerCount(x, n) then multiset(u)[x]
                else 0
  {
    var picked := if n < 0 then u else SelectPlayable(u, n);
    ApplySortPermutes(field, picked);
    if 0 <= n {
      SelectPlayableCounts(u, n);
    }
  }

  /** Every item on screen is a loaded item, shown no more often than it was loaded. */
  lemma FilteredViewWithinLoaded(field: string, u: seq<Item>, n: int)
    ensures multiset(FilteredView(field, u, n)) <= multiset(u)
  {
    FilteredViewCounts(field, u, n);
  }

  /**
   * The list a load shows is a reordering of the merged collection, so it
   * too holds each game name once.
   */
  lemma LoadedViewIsMergedCollection(field: string, batches: seq<seq<Item>>)
    ensures multiset(Resorted(field, MergeAll(Flatten(batches)))) == multiset(MergeAll(Flatten(batches)))
    ensures UniqueNames(Resorted(field, MergeAll(Flatten(batches))))
  {
    var merged := MergeAll(Flatten(batches));
    MergeHasUniqueNames(Flatten(batches));
    ApplySortPermutes(field, merged);
    PermutationKeepsUniqueNames(merged, Resorted(field, merged));
  }

  /** The list a load shows meets every clause of `CollectionView.Valid` that is about its contents. */
  lemma LoadedViewIsValid(field: string, batches: seq<seq<Item>>)
    ensures var merged := MergeAll(Flatten(batches));
      var shown := Resorted(field, merged);
      && multiset(shown) == multiset(merged)
      && UniqueNames(shown)
      && (OrderFor(field).Some? ==> AdjacentInOrder(OrderFor(field).value, shown))
  {
    LoadedViewIsMergedCollection(field, batches);
    if OrderFor(field).Some? {
      StableSortAdjacentInOrder(OrderFor(field).value, MergeAll(Flatten(batches)));
    }
  }

  /** The list on screen is in the sort field's order. */
  lemma FilteredViewInOrder(field: string, u: seq<Item>, n: int)
    requires OrderFor(field).Some?
    ensures AdjacentInOrder(OrderFor(field).value, FilteredView(field, u, n))
  {
    StableSortAdjacentInOrder(OrderFor(field).value, if n < 0 then u else SelectPlayable(u, n));
  }

  /**
   * Under "averageScore" or "alphabetical", while the sort field is still the
   * one used at load, choosing "all player counts" brings back exactly the
   * list shown at load time, whatever was filtered in between. (Under any
   * other field the load shows the merge unsorted, but the filter shows
   * nothing.) After a change of field the same items come back
   * (`FilteredViewCounts`), in the new field's order.
   */
  lemma ClearingFilterRestoresLoadedView(field: string, merged: seq<Item>)
    requires OrderFor(field).Some?
    ensures FilteredView(field, Resorted(field, merged), -1) == Resorted(field, merged)
  {
    StableSortIdempotent(OrderFor(field).value, merged);
  }

  /**
   * Filtering the list on screen again for the same count changes nothing,
   * under any sort field.
   */
  lemma FilterTwiceIsFilterOnce(field: string, u: seq<Item>, n: int)
    ensures FilteredView(field, FilteredView(field, u, n), n) == FilteredView(field, u, n)
  {
    if OrderFor(field).None? {
      return;
    }
    var o := OrderFor(field).value;
    if n < 0 {
      StableSortIdempotent(o, u);
      return;
    }
    var picked := SelectPlayable(u, n);
    var shown := StableSort(o, picked);
    SelectPlayableCounts(u, n);
    StableSortPermutes(o, picked);
    forall i | 0 <= i < |shown| ensures IsValidPlayerCount(shown[i], n) {
      assert multiset(shown)[shown[i]] > 0;
    }
    SelectAllPlayable(shown, n);
    StableSortIdempotent(o, picked);
  }

  /** `[...items]`: a new array with the same items. */
  method CopyOf(s: seq<Item>) returns (a: array<Item>)
    ensures fresh(a) && a[..] == s
  {
    a := new Item[|s|](i requires 0 <= i < |s| => s[i]);
  }

  class CollectionView {
    /** `unfilteredCollectionItems`: the merged collection, sorted as it was loaded. */
    var unfiltered: array<Item>
    /** `filteredCollectionItems`: the list on screen. */
    var filtered: array<Item>
    /**
     * `sortField`: any string; "averageScore" and "alphabetical" sort, and
     * every handler copes with any other value.
     */
    var sortField: string
    /** The merged collection the last load produced. */
    ghost var collection: seq<Item>

    /**
     * The loaded list holds each game of the merged collection once; the
     * list on screen is a separate array holding some of those games, in the
     * order of the current sort field.
     */
    ghost predicate Valid()
      reads this, unfiltered, filtered
    {
      && unfiltered != filtered
      && multiset(unfiltered[..]) == multiset(collection)
      && UniqueNames(unfiltered[..])
      && multiset(filtered[..]) <= multiset(unfiltered[..])
      && (OrderFor(sortField).Some? ==> AdjacentInOrder(OrderFor(sortField).value, filtered[..]))
    }

    /** The component's first render: score order, then the initial load. */
    constructor (batches: seq<seq<Item>>)
      ensures Valid()
      ensures sortField == "averageScore"
      ensures collection == MergeAll(Flatten(batches))
      ensures unfiltered[..] == Resorted("averageScore", collection)
      ensures filtered[..] == unfiltered[..]
    {
      sortField := "averageScore";
      unfiltered := new Item[0];
      filtered := new Item[0];
      collection := [];
      new;
      OnGetBggClicked(batches);
    }

    /**
     * `onGetBggClicked`: merges the fetched collections, sorts the result by
     * the current field and shows all of it.
     */
    method OnGetBggClicked(batches: seq<seq<Item>>)
      modifies this
      ensures Valid()
      ensures sortField == old(sortField)
      ensures collection == MergeAll(Flatten(batches))
      ensures fresh(unfiltered) && fresh(filtered)
      ensures unfiltered[..] == Resorted(sortField, collection)
      ensures filtered[..] == unfiltered[..]
    {
      var merged := MergeCollections(batches);
      var sorted := CopyOf(merged);
      var returned := ApplySort(sorted, sortField);
      LoadedViewIsValid(sortField, batches);
      unfiltered := CopyOf(sorted[..]);
      filtered := CopyOf(sorted[..]);
      collection := merged;
    }

    /**
     * `onSortFilterChanged`: records the new field and re-sorts the list on
     * screen. The sort runs on the array on screen itself, which is then
     * replaced by a copy of the result; an unknown field empties the screen.
     */
    method OnSortFilterChanged(newField: string)
      requires Valid()
      modifies this, filtered
      ensures Valid()
      ensures sortField == newField
      ensures unfiltered == old(unfiltered) && unfiltered[..] == old(unfiltered[..])
      ensures collection == old(collection)
      ensures old(filtered)[..] == Resorted(newField, old(filtered[..]))
      ensures fresh(filtered) && filtered[..] == ApplySortResult(newField, old(filtered[..]))
    {
      sortField := newField;
      ghost var shown := filtered[..];
      var sorted := ApplySort(filtered, newField);
      ApplySortPermutes(newField, shown);
      if OrderFor(newField).Some? {
        StableSortAdjacentInOrder(OrderFor(newField).value, shown);
      }
      filtered := CopyOf(if OrderFor(newField).Some? then sorted[..] else []);
    }

    /**
     * `filterByPlayerCount`: shows the loaded items that accept `n` (all of
     * them for a negative `n`), sorted by the current field, in a new array.
     */
    method FilterByPlayerCount(n: int)
      requires Valid()
      modifies this
      ensures Valid()
      ensures unfiltered == old(unfiltered) && sortField == old(sortField) && collection == old(collection)
      ensures fresh(filtered) && filtered[..] == FilteredView(sortField, unfiltered[..], n)
    {
      var picked: array<Item>;
      if n < 0 {
        picked := CopyOf(unfiltered[..]);
      } else {
        picked := CopyOf(SelectPlayable(unfiltered[..], n));
      }
      filtered := ApplySort(picked, sortField);
      FilteredViewWithinLoaded(sortField, unfiltered[..], n);
      if OrderFor(sortField).Some? {
        FilteredViewInOrder(sortField, unfiltered[..], n);
      }
    }
  }
}
